=== FILE: README.md ===
# TxManager: an idempotent transaction tracker, modelled in Dafny

`TxManager` submits transactions to an Ethereum network so that each logical
operation is sent at most once. Each operation is named by a key such as
`"payroll Alice"`. The tracker keeps a map from key to transaction receipt in
memory. After every change it writes the whole map to a JSON file. On start-up
it reloads that file, so a restarted process knows what was already sent.

`run(key, action)` drives a per-key state machine:

- **absent**: the action is used. With a function action, it is called with
  the signer; with a ready promise, the promise is awaited. The record
  `{transactionHash, confirmations: 0}` is stored and saved **before** the
  confirmation wait.
- **submitted** (`confirmations` 0): the action is never used. `run` waits on
  the stored hash, then stores and saves the result.
- **confirmed** (`confirmations` truthy): `run` returns the stored receipt at
  once.

BigNumber fields survive the file through a tagged form,
`{"type": "BigNumber", "hex": "0x…"}`. A reviver turns that form back into a
number when the file is parsed.

The project has these modules:

- `Wrappers`: Option and Result.
- `JsonValue`: JSON values plus BigNumber objects (`JBig`). It also defines
  JavaScript truthiness, the loose comparison with `"BigNumber"`, and what
  `JSON.stringify` writes (`Dehydrate`).
- `BigNumberHex`: hex text to number, and number to hex text.
- `Reviver`: `jsonRevive`, and the bottom-up walk that `JSON.parse` does with
  it.
- `RecordStore`: the file snapshot, `open` (load or empty), and the finding
  below.
- `Tracker`: `receipt` and `RunStep`, which is `run` as a function of the state
  and of what the network and the disk do.
- `RunProperties`: what one `run` guarantees, and two things it does not.
- `Manager`: the class `TxManager`. Its `Run` updates `receipts` in place,
  calls `Save` after each change, and is proved equal to `RunStep`.
- `History`: the at-most-one-submission theorem. It covers any sequence of
  `run` calls and process restarts.

Network results are inputs to the model. These are the provider's
`waitForTransaction`, what awaiting the action's promise comes to, and what
the response's `wait` resolves to. The action's promise can give a response
(a hash and a `wait`), or a rejection before anything was broadcast. It can
also give `Lost`: the transaction was broadcast, but its response never
reached `run`, because the promise rejected afterwards or the process died
while awaiting it. Each file write takes an input that says whether it
succeeds. The file is modelled as the JSON value it holds, in a ghost field.
Two ghost multisets count, per key, how often the action was used and how
often a transaction that `run` called for or awaited reached the network,
whether or not its response reached `run`. A ready promise's transaction is
counted only when `run` awaits it. `Awaited.Abandoned` stands for the process being killed during a
confirmation wait. The state at that point is the state a crash leaves
behind.

`open` as the source writes it keeps any top-level value the file holds (see
"Findings"). The class `TxManager`, `RunProperties` and `History` all use the
corrected `open`, `RecordStore.OpenReceipts`, which treats a top-level value
that is not an object like an unreadable file.

## Model

| member | source | states |
|---|---|---|
| `JsonValue.Truthy` | TxManager.ts:68-69 | JavaScript truthiness: every object and array is truthy, even an empty one; `null`, `false`, `0` and `""` are falsy. |
| `JsonValue.IsTagText` | TxManager.ts:24 | The loose `val["type"] == "BigNumber"`: true for exactly that string, and for an array exactly when it has one element that compares equal; false for every other kind of value. |
| `JsonValue.Dehydrate` | TxManager.ts:120 | What `JSON.stringify` writes, BigNumber `toJSON` included: no BigNumber at any depth; arrays keep their length and objects their keys; a value without BigNumbers is written as it is. |
| `BigNumberHex.FromHexString` | TxManager.ts:25 | `BigNumber.from` on a string. It succeeds exactly on a `0x`/`0X` literal with at least one hex digit. |
| `BigNumberHex.MinimalDigitsValue` | TxManager.ts:25 | The minimal hex digits of `n` denote `n`. |
| `BigNumberHex.LeadingZero` | TxManager.ts:25 | A leading `0` digit does not change the value of a hex digit string. |
| `BigNumberHex.HexRoundTrip` | TxManager.ts:25 | Decoding the hex text that BigNumber's `toJSON` writes for `n` gives back exactly `n`, at any size. |
| `Reviver.BigNumberFrom` | TxManager.ts:25 | `BigNumber.from(val["hex"])` succeeds exactly when `hex` is a string holding a hex literal. A missing `hex` or any other value throws. |
| `Reviver.ReviveNode` | TxManager.ts:22-30 | `jsonRevive` returns every value that is not a tagged object unchanged. A tagged object becomes the BigNumber its `hex` denotes, or throws when the hex is invalid. The result is never a tagged object. |
| `Reviver.TagRevives` | TxManager.ts:22-30 | The tagged object written for `n` revives to the BigNumber `n`. |
| `Reviver.Revive` | TxManager.ts:43 | `JSON.parse`'s walk with the reviver: a scalar comes back as it is, an array stays an array of the same length, an object keeps its keys or becomes a BigNumber. |
| `Reviver.ReviveDehydrate` | TxManager.ts:43 | Reviving what `JSON.stringify` writes for a plain value gives the value back, BigNumbers included. |
| `Reviver.RevivedIsPlain` | TxManager.ts:43 | Whatever `JSON.parse` with the reviver yields contains no tagged object. |
| `RecordStore.Snapshot` | TxManager.ts:119-122 | What `save` writes: an object with exactly the map's keys, holding no BigNumber object at any depth. |
| `RecordStore.SubmittedRecord` | TxManager.ts:97-100 | The "submitted" record is truthy and plain. It holds the hash, and its `confirmations` is falsy, so it is not confirmed. |
| `RecordStore.OpenReceipts` | TxManager.ts:35-49 | Corrected `open`: it yields an empty map when reading or parsing fails or the reviver throws. The map it yields is always plain. |
| `RecordStore.SnapshotReloads` | TxManager.ts:119-122 | Opening what `save` wrote for a plain map gives exactly that map. |
| `RecordStore.SubmittedRecordSurvivesReopen` | TxManager.ts:96-101 | Whatever file the tracker was opened from, a saved "submitted" record is found again by the next `open` (corrected `open`). |
| `RecordStore.OpenAsWritten` | TxManager.ts:39-48 | `open` as written: the tracker holds exactly the revived top-level value, whatever it is, and `{}` when reading, parsing or reviving fails. It agrees with `OpenReceipts` exactly when that value is an object. |
| `RecordStore.StoreAsWritten` | TxManager.ts:97-101 | Storing a record and saving, as written. An object gets the key. An array root writes its old content. A BigNumber root (a frozen object) and a primitive root throw. |
| `RecordStore.ArrayFileLosesSubmittedRecord` | TxManager.ts:39-48 | As written, a file holding `[]` opens without fallback. Saving a fresh submission then writes `[]` again. |
| `Tracker.ReceiptOf` | TxManager.ts:115-117 | `receipt(key)` returns the stored entry when it is present and truthy, and `null` otherwise. |
| `Tracker.Confirmed` | TxManager.ts:69 | `!!receipt.confirmations`: true exactly for an object whose `confirmations` member is truthy. |
| `Tracker.Invoke` | TxManager.ts:86-93 | Using the action: a function is called with the tracker's signer; a ready promise is taken as it was made. |
| `Tracker.Persist` | TxManager.ts:119-122 | After `save` the file holds the snapshot of the map; memory is unchanged. |
| `Tracker.RunStep` | TxManager.ts:58-113 | One `run`. A success leaves its result under `key`. Every other key keeps its entry. Each history grows by at most one use of `key`. |
| `RunProperties.ConfirmedKeyReturnsEarly` | TxManager.ts:66-72 | A confirmed key returns its stored receipt. Memory, file and histories do not change. |
| `RunProperties.RecordedKeyIgnoresAction` | TxManager.ts:68-82 | For a key with a record, the outcome is the same whatever action is passed. The action is never used and nothing is sent. |
| `RunProperties.ResumeWaitsOnStoredHash` | TxManager.ts:74-81 | For a submitted, unconfirmed key, `run` waits on the stored `transactionHash` with the default confirmations. It stores and saves whatever the wait resolves to, `null` included. A rejected wait changes nothing. |
| `RunProperties.AbsentKeyInvokesActionOnce` | TxManager.ts:84-93 | For an absent key, the action is used exactly once. One transaction reaching the network is counted exactly when the action is not refused before the broadcast. |
| `RunProperties.SubmittedRecordSavedBeforeWait` | TxManager.ts:96-103 | After a fresh submission, the file holds the old map plus the "submitted" record. The only exception is a run that completes its second save. |
| `RunProperties.MissingReceiptKeepsSubmittedRecord` | TxManager.ts:103-107 | A `null` from `wait` rejects the run. Memory and file both keep the "submitted" record. |
| `RunProperties.SuccessStoresAndSaves` | TxManager.ts:109-112 | On success the key holds the returned receipt. Either nothing changed (already confirmed), or the file is the snapshot of the new map. |
| `RunProperties.RunIsIdempotent` | TxManager.ts:68-72 | After a run returns a confirmed receipt, a second run with the same key returns the identical receipt. It changes nothing, whatever its inputs. |
| `RunProperties.ConfirmedStaysConfirmed` | TxManager.ts:58-113 | No run, for any key, changes a confirmed record. |
| `RunProperties.CrashDuringWaitResumes` | TxManager.ts:96-103 | A crash during the first wait leaves a file from which a reopened tracker finds the "submitted" record. Its next run for the key uses no action. |
| `RunProperties.NullResumeAllowsResubmission` | TxManager.ts:75-79 | If `waitForTransaction` resolves to `null`, the key then reads as absent, and the next run uses the action again. |
| `RunProperties.FailedSaveAllowsResubmissionAfterRestart` | TxManager.ts:96-101 | If the save after a submission fails, memory holds the record but a reopened tracker uses the action again. |
| `RunProperties.LostSubmissionAllowsResubmission` | TxManager.ts:93-101 | If a transaction is broadcast but its response never reaches `run` (a late rejection, or a crash during the await), nothing is recorded in memory or on disk. After a restart the next run uses the action again, and a second transaction for the key goes out unless that one is refused. |
| `Manager.TxManager.constructor` | TxManager.ts:51-56 | Sets the map, path and signer. `defaultConfirmations` is 1. |
| `Manager.TxManager.Open` | TxManager.ts:35-49 | A fresh tracker whose map is `OpenReceipts` of what the file holds (corrected `open`); it never fails. |
| `Manager.TxManager.Receipt` | TxManager.ts:115-117 | The entry for a present, truthy key; `None` (`null`) otherwise. |
| `Manager.TxManager.Save` | TxManager.ts:119-122 | A successful write makes the file the snapshot of the map. A failed one leaves the file unchanged and reports failure. |
| `Manager.TxManager.Run` | TxManager.ts:58-113 | The new state and result are those of `RunStep`. A key with a record uses no action; an absent key uses it once. |
| `Manager.RunTwice` | TxManager.ts:66-72 | On one tracker object, when the first `Run` returns a confirmed receipt, the second `Run` with the same key returns the identical receipt. The pair uses the action, and sends, at most once for that key. |
| `History.StepKeepsInv` | TxManager.ts:58-122 | Assume the call's action is a function of the signer, the save of its "submitted" record succeeds, a broadcast transaction's response reaches `run`, and the provider of that moment yields receipt objects. Then any run or restart (corrected `open`) keeps three facts: the map is plain, every record in memory is also in the file, and each key is sent at most once and, once sent, has a record. Saves of wait results may fail, and waits may reject or be cut short. |
| `History.RestartKeepsInv` | TxManager.ts:35-49 | A restart keeps the invariant: memory is lost, but every key that was sent is recorded in the file and so in the reopened map. |
| `History.StepKeepsRecord` | TxManager.ts:66-81 | Under the assumptions of `StepKeepsInv`, a key with a record keeps one through any run or restart (corrected `open`), and is not sent. |
| `History.AtMostOneSubmissionPerKey` | TxManager.ts:58-113 | Take any sequence of runs and restarts (corrected `open`) in which every action is a function of the signer, every save of a "submitted" record succeeds and every broadcast transaction's response reaches `run`. Each call has its own provider, so a wait that rejects or is cut short by a crash can be answered at a later resume. Saves of wait results (lines 80 and 110) may fail. Each key is submitted at most once, and a key already recorded is never submitted. |
| `History.FromAnyFile` | TxManager.ts:35-49 | The same guarantee holds starting from a tracker opened from any file with the corrected `open`. |

## Left out

- The program around the tracker is not part of this model. That covers configuration loading, command-line parsing, construction of the wallet and the token contract, CSV reading, amount computation, and the payroll loop (di.ts). It also covers the generated wiring (di_gen.ts).
- File text is not modelled: a file is the JSON value it holds. A failed read and text that is not JSON both appear as `None`. Pretty-printing and member order are not modelled, and objects are maps.
- JSON numbers are modelled as integers. In the source they are IEEE doubles; fractional values do not occur among the fields the tracker reads.
- `console.log` output, the unused `sleep`, and async scheduling are left out. Calls to `run` are taken to be sequential.
- `Reviver.BigNumberFrom` accepts only `0x`/`0X` hex literals. ethers also accepts `-0x…` literals, decimal strings, numbers, BigNumber objects, byte arrays, and objects carrying `_hex` or a `toHexString` method. The model treats all of these as a thrown error, so `open` falls back to an empty map. A BigNumber is modelled by its value alone, and `toJSON` writes canonical lower-case `0x…` text. ethers keeps the hex text built from its input: `0xAB` is written back with upper-case digits, and `0XAB` is accepted once, written back as `0x0XAB`, and then rejected by the next `open`, which starts from an empty map.
- `JsonValue.IsTagText` treats a `type` object that has its own `toString` member as unequal to `"BigNumber"`. In JavaScript that comparison throws instead.
- Keys that name members of `Object.prototype` (`constructor`, `__proto__`, `toString`, …) are treated as ordinary keys. In the source, a lookup of such a key finds the inherited member.
- `RecordStore.StoreAsWritten` is defined only for keys that contain a space, which every key the program builds does. Array-index keys on an array root are not modelled.
- BigNumber's `toJSON`/`toHexString` is written by hand (`BigNumberHex.ToHexString`). The provider's `waitForTransaction`, the transaction response's `wait`, and the signing itself are inputs.
- The ghost histories `invoked` and `sent` count a ready promise when `run` awaits it. The transaction behind such a promise was created, and may have gone out, before `run` was called.
- `Manager.TxManager.Save` treats a write as atomic: the file holds either the old content or the whole snapshot. `writeFile` (TxManager.ts:121) truncates the file first, so an interrupted write can leave a partial file that the next `open` cannot parse, and the tracker then starts from an empty map.
- Receipts from the network are modelled as JSON values. The ethers receipt of a contract call also holds function members and `undefined` members, which `JSON.stringify` drops, so `RecordStore.SnapshotReloads` holds for the model's values only; the members `run` reads (`transactionHash`, `confirmations`) do survive a save and a load.
- `Failure.Crashed` is not a value the source produces: it marks a run cut short by process termination.
- The `History` theorem assumes that the save of a "submitted" record (TxManager.ts:101) succeeds and that the network's receipts are objects. `RunProperties.FailedSaveAllowsResubmissionAfterRestart` and `RunProperties.NullResumeAllowsResubmission` show what happens otherwise. A failed save of a wait's result (line 80 or 110) is covered: the file still holds a record for the key.
- History.AtMostOneSubmissionPerKey: does not cover a transaction broadcast while its response never reaches `run` (`Submission.Lost`). That happens when the action's promise rejects after the broadcast, or the process dies while `run` awaits it at TxManager.ts:93. The source records nothing before that await, so no tracker can see such a transaction. `History.WellBehaved` excludes this case, and `RunProperties.LostSubmissionAllowsResubmission` shows the second submission it allows. `History.FromAnyFile` inherits the same assumption. Both theorems also assume every action is a function of the signer, as the program passes (di.ts:152-155): a ready promise has sent its transaction before `run` is called, and `sent` counts it only when `run` awaits it, so for a key that already has a record such a transaction goes out uncounted.
- `Manager.TxManager.Open`, the lemmas of `RunProperties` and all of `History` use the corrected `open` (`RecordStore.OpenReceipts`). With `open` as written, a file holding `[]` breaks the at-most-once guarantee (see "Findings").

## Findings

| source | as written | input that shows it | evidently intended | confidence | as-written member | corrected member |
|---|---|---|---|---|---|---|
| TxManager.ts:39-48 | `open` keeps any top-level JSON value and falls back to `{}` only when reading or parsing throws | a file holding `[]`: `receipts[key] = …` adds a named array property, which `JSON.stringify` omits, so every save writes `[]` and after a restart `run` submits the same key again | a file whose top-level value is not an object is treated like a corrupt file: start from an empty map | not executed; high | `RecordStore.ArrayFileLosesSubmittedRecord` | `RecordStore.SubmittedRecordSurvivesReopen` |

=== FILE: big_number_hex.dfy ===
/**
  Hexadecimal text of the integers that ethers' BigNumber stores: the
  `"0x…"` literal that `BigNumber.from` accepts and the one that
  `toHexString` (and so `toJSON`) produces.
*/
module BigNumberHex {
  import opened Wrappers

  predicate IsHexChar(c: char) {
    '0' <= c <= '9' || 'a' <= c <= 'f' || 'A' <= c <= 'F'
  }

  predicate IsHexDigits(d: string) {
    forall i :: 0 <= i < |d| ==> IsHexChar(d[i])
  }

  function DigitValue(c: char): (v: nat)
    requires IsHexChar(c)
    ensures v < 16
  {
    if '0' <= c <= '9' then c as int - '0' as int
    else if 'a' <= c <= 'f' then c as int - 'a' as int + 10
    else c as int - 'A' as int + 10
  }

  /** The lower-case digit for a value below 16. */
  function HexChar(v: nat): (c: char)
    requires v < 16
    ensures IsHexChar(c) && DigitValue(c) == v
  {
    if v < 10 then ('0' as int + v) as char else ('a' as int + v - 10) as char
  }

  /** The number a string of hex digits denotes, most significant first. */
  function HexValue(d: string): nat
    requires IsHexDigits(d)
  {
    if d == [] then 0 else 16 * HexValue(d[..|d| - 1]) + DigitValue(d[|d| - 1])
  }

  /** The strings matching `/^0x[0-9a-f]+$/i`: `0x` or `0X`, then at least one
      hex digit in either case. */
  predicate IsHexLiteral(s: string) {
    |s| >= 3 && s[0] == '0' && (s[1] == 'x' || s[1] == 'X') && IsHexDigits(s[2..])
  }

  /** `BigNumber.from` applied to a string: the value of a hex literal, and a
      thrown error (`None`) for any other text. */
  function FromHexString(s: string): (r: Option<nat>)
    ensures r.Some? <==> IsHexLiteral(s)
  {
    if IsHexLiteral(s) then Some(HexValue(s[2..])) else None
  }

  /** The shortest lower-case digits of `n`; empty for zero. */
  function MinimalDigits(n: nat): (d: string)
    ensures IsHexDigits(d)
    ensures n == 0 <==> d == []
  {
    if n == 0 then [] else MinimalDigits(n / 16) + [HexChar(n % 16)]
  }

  /** `toHexString`: `0x` and the minimal digits padded to an even count,
      `0x00` for zero. */
  function ToHexString(n: nat): (s: string)
    ensures IsHexLiteral(s) && |s| % 2 == 0
  {
    var d := MinimalDigits(n);
    if d == [] then "0x00"
    else if |d| % 2 == 1 then "0x0" + d
    else "0x" + d
  }

  lemma {:induction false} MinimalDigitsValue(n: nat)
    ensures HexValue(MinimalDigits(n)) == n
    decreases n
  {
    if n != 0 {
      var d := MinimalDigits(n);
      MinimalDigitsValue(n / 16);
      assert d[..|d| - 1] == MinimalDigits(n / 16);
    }
  }

  /** Leading zeros do not change the value of a digit string. */
  lemma {:induction false} LeadingZero(d: string)
    requires IsHexDigits(d)
    ensures IsHexDigits("0" + d) && HexValue("0" + d) == HexValue(d)
    decreases |d|
  {
    if d != [] {
      var z := "0" + d;
      assert z[..|z| - 1] == "0" + d[..|d| - 1];
      LeadingZero(d[..|d| - 1]);
    }
  }

  /** Decoding the hex text of a BigNumber gives back the number, to full
      precision. */
  lemma HexRoundTrip(n: nat)
    ensures FromHexString(ToHexString(n)) == Some(n)
  {
    var d := MinimalDigits(n);
    MinimalDigitsValue(n);
    var s := ToHexString(n);
    if d == [] {
      assert s[2..] == "00" && "00"[..1] == "0" && "0"[..0] == [];
    } else if |d| % 2 == 1 {
      assert s[2..] == "0" + d;
      LeadingZero(d);
    } else {
      assert s[2..] == d;
    }
  }
}

=== FILE: history.dfy ===
/**
  The at-most-one-submission guarantee over whole histories: any sequence of
  `run` calls, for any keys, interleaved with process restarts that reopen
  the tracker from its file. Each call meets the network as it is at that
  moment: its own provider answers the waits.
*/
module History {
  import opened Wrappers
  import opened JsonValue
  import opened RecordStore
  import opened Tracker

  /** A `run(key, action)` against the network as `now` answers it, or a
      process restart. */
  datatype Event = Call(key: string, action: Action, writes: Writes, now: Wallet) | Restart

  /** The state a tracker starts with, opened from what the file holds. */
  function Opened(loaded: Option<Json>): (s: State)
    ensures s.receipts == OpenReceipts(loaded) && s.file == loaded
  {
    State(OpenReceipts(loaded), loaded, multiset{}, multiset{})
  }

  /** A restart loses memory and reopens the file; the histories go on. */
  function Apply(s: State, confirmations: int, e: Event): State {
    match e
    case Call(key, action, writes, now) => RunStep(s, now, confirmations, key, action, writes).state
    case Restart => s.(receipts := OpenReceipts(s.file))
  }

  function Replay(s: State, confirmations: int, events: seq<Event>): State
    decreases |events|
  {
    if events == [] then s else Replay(Apply(s, confirmations, events[0]), confirmations, events[1..])
  }

  /** A settled wait yields a receipt object, as the provider's receipts are. */
  predicate ReceiptShaped(a: Awaited) {
    a.Resolved? ==> a.value.JObject? && Plain(a.value)
  }

  ghost predicate ReliableProvider(signer: Wallet, confirmations: int) {
    forall hash :: ReceiptShaped(signer.waitForTransaction(hash, confirmations))
  }

  /** The action is a function of the signer, so nothing is sent unless `run`
      calls it (a ready promise has sent its transaction before `run` looks
      at the key); the save of a "submitted" record succeeds; a transaction
      that reaches the network also reaches `run` (no `Lost` submission); the
      provider's `waitForTransaction` yields receipt objects; and the wait of a
      fresh submission yields `null` or a receipt object. The save of a wait's
      result may fail, and waits may reject or be cut short by a crash. */
  ghost predicate WellBehaved(e: Event, confirmations: int) {
    match e
    case Restart => true
    case Call(_, action, writes, now) =>
      && action.Deferred?
      && writes.submitted
      && !Invoke(action, now).Lost?
      && ReliableProvider(now, confirmations)
      && (Invoke(action, now).Sent? ==>
            var a := Invoke(action, now).wait(confirmations);
            a == Resolved(JNull) || ReceiptShaped(a))
  }

  /** Each key is counted at most once as sent, and a key counted as sent
      has a record. */
  ghost predicate SentRecorded(sent: multiset<string>, receipts: map<string, Json>) {
    forall k :: sent[k] <= 1 && (sent[k] == 1 ==> ReceiptOf(receipts, k).Some?)
  }

  /** Every key with a record in memory also has one in the file. */
  ghost predicate Durable(receipts: map<string, Json>, file: Option<Json>) {
    forall k :: ReceiptOf(receipts, k).Some? ==> ReceiptOf(OpenReceipts(file), k).Some?
  }

  /** The map is plain, every record in memory is also on disk, and sent keys
      have records. Memory may run ahead of the file after a failed save. */
  ghost predicate Inv(s: State) {
    Plain(JObject(s.receipts)) && Durable(s.receipts, s.file) && SentRecorded(s.sent, s.receipts)
  }

  lemma OpenedSatisfiesInv(loaded: Option<Json>)
    ensures Inv(Opened(loaded))
  {
  }

  /** A state just saved, holding plain receipts, has the file in step. */
  lemma SavedInv(t: State)
    requires t.file == Some(Snapshot(t.receipts)) && Plain(JObject(t.receipts))
    requires SentRecorded(t.sent, t.receipts)
    ensures Inv(t)
  {
    SnapshotReloads(t.receipts);
  }

  /** Storing a receipt object under a key keeps the map plain and keeps
      every sent key recorded; `isNew` adds the key to the sent ones. */
  lemma PutKeepsInvParts(m: map<string, Json>, sent: multiset<string>, key: string, v: Json, isNew: bool)
    requires Plain(JObject(m)) && v.JObject? && Plain(v)
    requires SentRecorded(sent, m)
    requires isNew ==> sent[key] == 0
    ensures Plain(JObject(m[key := v]))
    ensures SentRecorded(if isNew then sent + multiset{key} else sent, m[key := v])
  {
    var sent' := if isNew then sent + multiset{key} else sent;
    forall k
      ensures sent'[k] <= 1 && (sent'[k] == 1 ==> ReceiptOf(m[key := v], k).Some?)
    {
      if k != key {
        assert sent'[k] == sent[k];
      }
    }
  }

  /** Replacing the record of a key that already has one by a receipt object
      keeps the invariant, whether or not the save that follows succeeds. */
  lemma ReplaceKeepsInv(t: State, key: string, v: Json)
    requires Inv(t) && ReceiptOf(t.receipts, key).Some?
    requires v.JObject? && Plain(v)
    ensures Inv(t.(receipts := t.receipts[key := v]))
    ensures Inv(Persist(t.(receipts := t.receipts[key := v])))
  {
    var u := t.(receipts := t.receipts[key := v]);
    PutKeepsInvParts(t.receipts, t.sent, key, v, false);
    forall k | ReceiptOf(u.receipts, k).Some?
      ensures ReceiptOf(OpenReceipts(u.file), k).Some?
    {
      if k != key {
        assert ReceiptOf(t.receipts, k).Some?;
      }
    }
    SavedInv(Persist(u));
  }

  /** A restart keeps the invariant: every sent key is recorded in the file. */
  lemma RestartKeepsInv(s: State)
    requires Inv(s)
    ensures Inv(s.(receipts := OpenReceipts(s.file)))
  {
    var m := OpenReceipts(s.file);
    forall k
      ensures s.sent[k] <= 1 && (s.sent[k] == 1 ==> ReceiptOf(m, k).Some?)
    {
      if s.sent[k] == 1 {
        assert ReceiptOf(s.receipts, k).Some?;
      }
    }
  }

  lemma ResumeKeepsInv(s: State, signer: Wallet, confirmations: int, key: string, action: Action, writes: Writes)
    requires Inv(s) && ReliableProvider(signer, confirmations)
    requires ReceiptOf(s.receipts, key).Some?
    ensures Inv(RunStep(s, signer, confirmations, key, action, writes).state)
  {
    var rec := s.receipts[key];
    if !Confirmed(rec) {
      var w := signer.waitForTransaction(Get(rec, "transactionHash"), confirmations);
      assert ReceiptShaped(w);
      if w.Resolved? {
        ReplaceKeepsInv(s, key, w.value);
      }
    }
  }

  lemma SubmitKeepsInv(s: State, confirmations: int, key: string, action: Action, writes: Writes, now: Wallet)
    requires Inv(s) && WellBehaved(Call(key, action, writes, now), confirmations)
    requires ReceiptOf(s.receipts, key).None?
    ensures Inv(RunStep(s, now, confirmations, key, action, writes).state)
  {
    if Invoke(action, now).Sent? {
      SentKeepsInv(s, confirmations, key, action, writes, now);
    }
  }

  /** A fresh submission whose response reached `run`. */
  lemma SentKeepsInv(s: State, confirmations: int, key: string, action: Action, writes: Writes, now: Wallet)
    requires Inv(s) && WellBehaved(Call(key, action, writes, now), confirmations)
    requires ReceiptOf(s.receipts, key).None? && Invoke(action, now).Sent?
    ensures Inv(RunStep(s, now, confirmations, key, action, writes).state)
  {
    var sub := Invoke(action, now);
    assert s.sent[key] == 0;
    var s1 := s.(receipts := s.receipts[key := SubmittedRecord(sub.hash)],
                 invoked := s.invoked + multiset{key}, sent := s.sent + multiset{key});
    var o := RunStep(s, now, confirmations, key, action, writes);
    PutKeepsInvParts(s.receipts, s.sent, key, SubmittedRecord(sub.hash), true);
    SavedInv(Persist(s1));
    var w := sub.wait(confirmations);
    if w.Resolved? && w.value != JNull {
      var t := Persist(s1);
      assert ReceiptOf(t.receipts, key).Some?;
      ReplaceKeepsInv(t, key, w.value);
      assert o.state == t.(receipts := t.receipts[key := w.value]) || o.state == Persist(t.(receipts := t.receipts[key := w.value]));
    } else {
      assert o.state == Persist(s1);
    }
  }

  lemma StepKeepsInv(s: State, confirmations: int, e: Event)
    requires Inv(s) && WellBehaved(e, confirmations)
    ensures Inv(Apply(s, confirmations, e))
  {
    match e
    case Restart =>
      RestartKeepsInv(s);
    case Call(key, action, writes, now) =>
      if ReceiptOf(s.receipts, key).Some? {
        ResumeKeepsInv(s, now, confirmations, key, action, writes);
      } else {
        SubmitKeepsInv(s, confirmations, key, action, writes, now);
      }
  }

  /** A key with a record keeps one, and is never sent. */
  lemma {:induction false} StepKeepsRecord(s: State, confirmations: int, e: Event, k: string)
    requires Inv(s) && WellBehaved(e, confirmations)
    requires ReceiptOf(s.receipts, k).Some?
    ensures ReceiptOf(Apply(s, confirmations, e).receipts, k).Some?
    ensures Apply(s, confirmations, e).sent[k] == s.sent[k]
  {
    match e
    case Restart =>
    case Call(key, action, writes, now) =>
      if key == k && !Confirmed(s.receipts[k]) {
        var w := now.waitForTransaction(Get(s.receipts[k], "transactionHash"), confirmations);
        assert ReceiptShaped(w);
      }
  }

  /** At most one submission per key, across any calls and restarts, as long
      as every save of a "submitted" record succeeds, every transaction that
      reaches the network also reaches `run`, and the network yields receipt
      objects; and a key the tracker already records is never submitted at
      all. Saves of wait results may fail, and waits may be cut short. */
  lemma {:induction false} AtMostOneSubmissionPerKey(s: State, confirmations: int, events: seq<Event>, k: string)
    requires Inv(s)
    requires forall i :: 0 <= i < |events| ==> WellBehaved(events[i], confirmations)
    ensures Replay(s, confirmations, events).sent[k] <= 1
    ensures ReceiptOf(s.receipts, k).Some? ==> Replay(s, confirmations, events).sent[k] == s.sent[k]
    decreases |events|
  {
    if events != [] {
      var next := Apply(s, confirmations, events[0]);
      StepKeepsInv(s, confirmations, events[0]);
      if ReceiptOf(s.receipts, k).Some? {
        StepKeepsRecord(s, confirmations, events[0], k);
      }
      AtMostOneSubmissionPerKey(next, confirmations, events[1..], k);
    }
  }

  /** The same from a tracker freshly opened from any file. */
  lemma FromAnyFile(loaded: Option<Json>, confirmations: int, events: seq<Event>, k: string)
    requires forall i :: 0 <= i < |events| ==> WellBehaved(events[i], confirmations)
    ensures Replay(Opened(loaded), confirmations, events).sent[k] <= 1
    ensures ReceiptOf(OpenReceipts(loaded), k).Some? ==> Replay(Opened(loaded), confirmations, events).sent[k] == 0
  {
    OpenedSatisfiesInv(loaded);
    AtMostOneSubmissionPerKey(Opened(loaded), confirmations, events, k);
  }
}

=== FILE: json_value.dfy ===
/**
  The JSON values that the durable receipts file holds, and that the tracker
  keeps in memory once the file has been parsed.

  `JBig` is an ethers BigNumber object: it never appears in parsed JSON text;
  the reviver creates it from a tagged object, and `JSON.stringify` turns it
  back into one through BigNumber's `toJSON` (modelled here by `Dehydrate`).
*/
module JsonValue {
  import opened Wrappers
  import BigNumberHex

  datatype Json =
    | JNull
    | JBool(b: bool)
    | JNumber(n: int)
    | JString(s: string)
    | JArray(items: seq<Json>)
    | JObject(fields: map<string, Json>)
    | JBig(value: nat)

  /** JavaScript truthiness of a value (`!!v`). Every object is truthy, an
      empty array or object included; of the primitives only `null`, `false`,
      `0` and `""` are falsy. */
  function Truthy(v: Json): (b: bool)
    ensures v.JArray? || v.JObject? || v.JBig? ==> b
    ensures v.JNull? ==> !b
    ensures v.JBool? ==> b == v.b
    ensures v.JNumber? ==> (b <==> v.n != 0)
    ensures v.JString? ==> (b <==> v.s != "")
  {
    match v
    case JNull => false
    case JBool(b) => b
    case JNumber(n) => n != 0
    case JString(s) => s != ""
    case _ => true
  }

  /** Truthiness of a property read, where `None` is `undefined`. */
  predicate TruthyProperty(p: Option<Json>) {
    p.Some? && Truthy(p.value)
  }

  /** Property read `v[name]` on a parsed JSON value; `None` is `undefined`.
      Arrays, strings and BigNumber objects have no property of the names the
      tracker reads (`confirmations`, `transactionHash`, `type`, `hex`). */
  function Get(v: Json, name: string): (p: Option<Json>)
    ensures p.Some? <==> v.JObject? && name in v.fields
    ensures p.Some? ==> p.value == v.fields[name]
  {
    match v
    case JObject(fields) => if name in fields then Some(fields[name]) else None
    case _ => None
  }

  /** The loose comparison `t == "BigNumber"`. A string compares by content; an
      array is first converted to the text of its elements joined by commas,
      so only a one-element array whose element converts to "BigNumber"
      compares equal. Every other value converts to some other text. */
  function IsTagText(t: Json): (b: bool)
    ensures t.JString? ==> (b <==> t.s == "BigNumber")
    ensures t.JArray? ==> (b <==> |t.items| == 1 && IsTagText(t.items[0]))
    ensures b ==> t.JString? || t.JArray?
  {
    match t
    case JString(s) => s == "BigNumber"
    case JArray(items) => |items| == 1 && IsTagText(items[0])
    case _ => false
  }

  /** The object shape that the reviver replaces by a BigNumber. */
  predicate TagLike(fields: map<string, Json>) {
    "type" in fields && IsTagText(fields["type"])
  }

  /** No object anywhere in `v` has the tagged shape, so reviving the
      serialised form of `v` gives `v` back. */
  predicate Plain(v: Json) {
    match v
    case JArray(items) => forall i :: 0 <= i < |items| ==> Plain(items[i])
    case JObject(fields) => !TagLike(fields) && forall k :: k in fields ==> Plain(fields[k])
    case _ => true
  }

  /** No BigNumber object anywhere in `v`: a value JSON text can hold. */
  predicate Textual(v: Json) {
    match v
    case JBig(_) => false
    case JArray(items) => forall i :: 0 <= i < |items| ==> Textual(items[i])
    case JObject(fields) => forall k :: k in fields ==> Textual(fields[k])
    case _ => true
  }

  /** The tagged object BigNumber's `toJSON` produces for `n`. */
  function Tag(n: nat): Json {
    JObject(map["type" := JString("BigNumber"), "hex" := JString(BigNumberHex.ToHexString(n))])
  }

  /** What `JSON.stringify` writes for a value, as a JSON value: every
      BigNumber becomes its tagged object; the text layout is not modelled. */
  function Dehydrate(v: Json): (w: Json)
    ensures Textual(w)
    ensures v.JArray? ==> w.JArray? && |w.items| == |v.items|
    ensures v.JObject? ==> w.JObject? && w.fields.Keys == v.fields.Keys
    ensures Textual(v) ==> w == v
  {
    match v
    case JBig(n) => Tag(n)
    case JArray(items) => JArray(seq(|items|, i requires 0 <= i < |items| => Dehydrate(items[i])))
    case JObject(fields) => JObject(map k | k in fields :: Dehydrate(fields[k]))
    case _ => v
  }
}

=== FILE: manager.dfy ===
/**
  The `TxManager` class (TxManager.ts:34-123): an object whose `receipts`
  field `run` updates in place, with a `save` after every change. The file
  and the two histories are ghost fields; every method is proved to do what
  the functions of modules RecordStore and Tracker say.
*/
module Manager {
  import opened Wrappers
  import opened JsonValue
  import opened Reviver
  import opened RecordStore
  import opened Tracker
  import RunProperties

  class TxManager {
    var receipts: map<string, Json>
    const filePath: string
    const signer: Wallet
    var defaultConfirmations: int
    /** What the file at `filePath` holds. */
    ghost var file: Option<Json>
    ghost var invoked: multiset<string>
    ghost var sent: multiset<string>

    ghost function State(): Tracker.State
      reads this
    {
      Tracker.State(receipts, file, invoked, sent)
    }

    constructor (receipts: map<string, Json>, filePath: string, signer: Wallet, ghost file: Option<Json>)
      ensures this.receipts == receipts && this.filePath == filePath && this.signer == signer
      ensures this.file == file && invoked == multiset{} && sent == multiset{}
      ensures defaultConfirmations == 1
    {
      this.receipts := receipts;
      this.filePath := filePath;
      this.signer := signer;
      this.file := file;
      invoked, sent := multiset{}, multiset{};
      defaultConfirmations := 1;
    }

    /** `TxManager.open`: `loaded` is what reading and parsing the file gave,
        `None` when either threw. It never fails. */
    static method Open(filePath: string, signer: Wallet, loaded: Option<Json>) returns (m: TxManager)
      ensures fresh(m) && m.filePath == filePath && m.signer == signer && m.defaultConfirmations == 1
      ensures m.receipts == OpenReceipts(loaded) && m.file == loaded
      ensures m.invoked == multiset{} && m.sent == multiset{}
    {
      m := new TxManager(OpenReceipts(loaded), filePath, signer, loaded);
    }

    /** `receipt(key)`: the stored entry, or `None` for `null`. */
    function Receipt(key: string): (r: Option<Json>)
      reads this
      ensures r.Some? <==> key in receipts && Truthy(receipts[key])
      ensures r.Some? ==> r.value == receipts[key]
    {
      ReceiptOf(receipts, key)
    }

    /** `save`: the file becomes a snapshot of the map when the write
        succeeds, and is left as it was when it fails. */
    method Save(writeOk: bool) returns (saved: bool)
      modifies this`file
      ensures saved == writeOk
      ensures file == if writeOk then Some(Snapshot(receipts)) else old(file)
    {
      if writeOk {
        file := Some(Snapshot(receipts));
      }
      saved := writeOk;
    }

    /** `run(key, action)`. */
    method Run(key: string, action: Action, writes: Writes) returns (r: Result<Json, Failure>)
      modifies this
      ensures defaultConfirmations == old(defaultConfirmations)
      ensures Step(State(), r) == RunStep(old(State()), signer, defaultConfirmations, key, action, writes)
      ensures old(Receipt(key)).Some? ==> invoked == old(invoked) && sent == old(sent)
      ensures old(Receipt(key)).None? ==> invoked == old(invoked) + multiset{key}
    {
      var receipt := Receipt(key);
      if receipt.Some? {
        var rec := receipt.value;
        if Confirmed(rec) {
          return Ok(rec);
        }
        var awaited := signer.waitForTransaction(Get(rec, "transactionHash"), defaultConfirmations);
        match awaited {
          case Rejected =>
            return Err(WaitFailed);
          case Abandoned =>
            return Err(Crashed);
          case Resolved(v) =>
            receipts := receipts[key := v];
            var saved := Save(writes.result);
            if !saved {
              return Err(WriteFailed);
            }
            return Ok(v);
        }
      }

      var submission: Submission;
      match action {
        case Deferred(send) =>
          submission := send(signer);
        case Ready(response) =>
          submission := response;
      }
      invoked := invoked + multiset{key};
      if submission.Refused? {
        return Err(SubmitFailed);
      } else if submission.Lost? {
        // the transaction went out, but its response never came back
        sent := sent + multiset{key};
        return Err(if submission.crashed then Crashed else SubmitFailed);
      }

      // record that the transaction is submitted, before waiting for it
      sent := sent + multiset{key};
      receipts := receipts[key := SubmittedRecord(submission.hash)];
      var saved := Save(writes.submitted);
      if !saved {
        return Err(WriteFailed);
      }

      var awaited := submission.wait(defaultConfirmations);
      if awaited.Rejected? {
        return Err(WaitFailed);
      } else if awaited.Abandoned? {
        return Err(Crashed);
      }
      var confirmed := awaited.value;
      if confirmed == JNull {
        return Err(MissingReceipt);
      }

      receipts := receipts[key := confirmed];
      saved := Save(writes.result);
      if !saved {
        return Err(WriteFailed);
      }
      return Ok(confirmed);
    }
  }

  /** Two runs of one key on one tracker: when the first returns a confirmed
      receipt, the second returns the identical receipt and uses no action,
      so the pair used the action at most once. */
  method RunTwice(m: TxManager, key: string, a1: Action, w1: Writes, a2: Action, w2: Writes)
    returns (first: Result<Json, Failure>, second: Result<Json, Failure>)
    modifies m
    ensures first.Ok? && Confirmed(first.value) ==>
              second == first && m.invoked[key] <= old(m.invoked[key]) + 1 && m.sent[key] <= old(m.sent[key]) + 1
  {
    ghost var s0 := m.State();
    first := m.Run(key, a1, w1);
    ghost var s1 := m.State();
    second := m.Run(key, a2, w2);
    if first.Ok? && Confirmed(first.value) {
      RunProperties.RunIsIdempotent(s0, m.signer, m.defaultConfirmations, key, a1, w1, a2, w2);
      assert m.State() == s1;
    }
  }
}

=== FILE: record_store.dfy ===
/**
  The durable record store: the key-to-receipt map as the JSON file holds it.
  `save` (TxManager.ts:119-122) overwrites the file with a snapshot of the
  whole map; `open` (TxManager.ts:35-49) loads it, falling back to an empty
  map when reading or parsing fails. File text is not modelled: a file is the
  JSON value it holds, and `None` stands for a file that cannot be read or
  is not JSON text.
*/
module RecordStore {
  import opened Wrappers
  import opened JsonValue
  import opened Reviver

  /** What `save` writes for the in-memory map: an object with the same keys,
      holding no BigNumber object at any depth. */
  function Snapshot(receipts: map<string, Json>): (doc: Json)
    ensures doc.JObject? && doc.fields.Keys == receipts.Keys
    ensures Textual(doc)
  {
    Dehydrate(JObject(receipts))
  }

  /** The record `run` stores once a fresh submission has been accepted
      (TxManager.ts:97-100). */
  function SubmittedRecord(hash: string): (r: Json)
    ensures Plain(r) && Truthy(r)
    ensures Get(r, "transactionHash") == Some(JString(hash))
    ensures !TruthyProperty(Get(r, "confirmations"))
  {
    JObject(map["transactionHash" := JString(hash), "confirmations" := JNumber(0)])
  }

  /** The map `open` starts the tracker with, given what the file holds.
      Nothing readable, text that is not JSON, a hex text `BigNumber.from`
      rejects, or (see `OpenAsWritten`) a top-level value that is not an
      object: all give the empty map. */
  function OpenReceipts(loaded: Option<Json>): (receipts: map<string, Json>)
    ensures Plain(JObject(receipts))
    ensures loaded.None? ==> receipts == map[]
    ensures loaded.Some? && Revive(loaded.value).None? ==> receipts == map[]
  {
    match loaded
    case None => map[]
    case Some(doc) =>
      var revived := Revive(doc);
      if revived.Some? && revived.value.JObject? then
        RevivedIsPlain(doc);
        revived.value.fields
      else map[]
  }

  /** Every map the tracker can hold is reloaded exactly from its snapshot. */
  lemma SnapshotReloads(receipts: map<string, Json>)
    requires Plain(JObject(receipts))
    ensures OpenReceipts(Some(Snapshot(receipts))) == receipts
  {
    ReviveDehydrate(JObject(receipts));
  }

  /** Whatever file the tracker was opened from, a submission it records and
      saves is found again by the next `open`. */
  lemma SubmittedRecordSurvivesReopen(loaded: Option<Json>, key: string, hash: string)
    ensures var saved := Snapshot(OpenReceipts(loaded)[key := SubmittedRecord(hash)]);
            var reopened := OpenReceipts(Some(saved));
            key in reopened && reopened[key] == SubmittedRecord(hash)
  {
    var m := OpenReceipts(loaded)[key := SubmittedRecord(hash)];
    assert Plain(JObject(m));
    SnapshotReloads(m);
  }

  /** `open` as written: the tracker keeps whatever the revived top-level value
      is, object or not; only a failure falls back to `{}`. */
  function OpenAsWritten(loaded: Option<Json>): (root: Json)
    ensures loaded.Some? && Revive(loaded.value).Some? ==> root == Revive(loaded.value).value
    ensures loaded.None? || Revive(loaded.value).None? ==> root == JObject(map[])
    ensures root.JObject? ==> root.fields == OpenReceipts(loaded)
    ensures !root.JObject? ==> OpenReceipts(loaded) == map[]
  {
    match loaded
    case None => JObject(map[])
    case Some(doc) =>
      match Revive(doc)
      case Some(w) => w
      case None => JObject(map[])
  }

  /** Lines 97-101 as written on whatever top-level value the tracker holds:
      the document `save` writes after `receipts[key] = record`, or `None`
      when the assignment throws. For a key that is not an array index (every
      key the program builds holds a space, di.ts:138): an array keeps the
      new member as a named property, which `JSON.stringify` omits; a
      BigNumber object is frozen by its constructor, and a primitive cannot
      hold a property, so in strict code both throw a TypeError; `null`
      throws already when the key is read. */
  function StoreAsWritten(root: Json, key: string, record: Json): (written: Option<Json>)
    requires ' ' in key
    ensures root.JObject? ==> written == Some(Snapshot(root.fields[key := record]))
    ensures root.JArray? ==> written == Some(Dehydrate(root))
    ensures !root.JObject? && !root.JArray? ==> written.None?
  {
    match root
    case JObject(m) => Some(Snapshot(m[key := record]))
    case JArray(_) => Some(Dehydrate(root))
    case _ => None
  }

  /** A file holding `[]` is not a failure for `open`, and saving the record
      of a fresh submission writes `[]` again: the record never reaches the
      file, so after a restart `run` submits the same key once more. */
  lemma ArrayFileLosesSubmittedRecord(hash: string)
    ensures OpenAsWritten(Some(JArray([]))) == JArray([])
    ensures StoreAsWritten(JArray([]), "pay Alice", SubmittedRecord(hash)) == Some(JArray([]))
  {
    ReviveArray([], []);
    assert "pay Alice"[3] == ' ';
    assert Dehydrate(JArray([])).items == [];
  }
}

=== FILE: reviver.dfy ===
/**
  The reviver `jsonRevive` (TxManager.ts:22-30) and the way `JSON.parse`
  applies it: bottom-up, each value after all of its elements and members
  have been revived, the root last. A thrown error anywhere (an invalid hex
  text) makes the whole parse throw, which `None` models.
*/
module Reviver {
  import opened Wrappers
  import opened JsonValue
  import BigNumberHex

  /** `BigNumber.from(val["hex"])`, where `None` is `undefined`: only a hex
      literal string is accepted; anything else throws. */
  function BigNumberFrom(hex: Option<Json>): (r: Option<nat>)
    ensures r.Some? <==> hex.Some? && hex.value.JString? && BigNumberHex.IsHexLiteral(hex.value.s)
  {
    match hex
    case Some(JString(s)) => BigNumberHex.FromHexString(s)
    case _ => None
  }

  /** `jsonRevive(key, val)`: the key is not used. A truthy object whose
      `type` compares loosely equal to "BigNumber" becomes the BigNumber its
      `hex` denotes; every other value is returned as it is. */
  function ReviveNode(v: Json): (r: Option<Json>)
    ensures !(v.JObject? && TagLike(v.fields)) ==> r == Some(v)
    ensures v.JObject? && TagLike(v.fields) ==>
              (r.Some? <==> BigNumberFrom(Get(v, "hex")).Some?) &&
              (r.Some? ==> r.value == JBig(BigNumberFrom(Get(v, "hex")).value))
    ensures r.Some? ==> !(r.value.JObject? && TagLike(r.value.fields))
  {
    match v
    case JObject(fields) =>
      if TagLike(fields) then
        match BigNumberFrom(Get(v, "hex"))
        case Some(n) => Some(JBig(n))
        case None => None
      else Some(v)
    case _ => Some(v)
  }

  /** `JSON.parse(text, jsonRevive)` on the value the text denotes: children
      first, then the value itself; an error in any element or member makes
      the whole parse fail. A scalar comes back as it is, an array stays an
      array of the same length, and an object keeps its keys or becomes a
      BigNumber. */
  function Revive(v: Json): (r: Option<Json>)
    ensures !v.JArray? && !v.JObject? ==> r == Some(v)
    ensures v.JArray? && r.Some? ==> r.value.JArray? && |r.value.items| == |v.items|
    ensures v.JObject? && r.Some? ==> r.value.JBig? || (r.value.JObject? && r.value.fields.Keys == v.fields.Keys)
  {
    match v
    case JArray(items) =>
      if forall i :: 0 <= i < |items| ==> Revive(items[i]).Some? then
        ReviveNode(JArray(seq(|items|, i requires 0 <= i < |items| => Revive(items[i]).value)))
      else None
    case JObject(fields) =>
      if forall k :: k in fields ==> Revive(fields[k]).Some? then
        ReviveNode(JObject(map k | k in fields :: Revive(fields[k]).value))
      else None
    case _ => ReviveNode(v)
  }

  /** A tagged object holding the hex text of `n` revives to `n`. */
  lemma TagRevives(n: nat)
    ensures Revive(Tag(n)) == Some(JBig(n))
  {
    var fields := Tag(n).fields;
    ReviveObject(fields, fields);
    BigNumberHex.HexRoundTrip(n);
  }

  /** An array whose elements revive one by one to `revived` revives as a whole
      to the reviver applied to `revived`. */
  lemma ReviveArray(items: seq<Json>, revived: seq<Json>)
    requires |items| == |revived|
    requires forall i :: 0 <= i < |items| ==> Revive(items[i]) == Some(revived[i])
    ensures Revive(JArray(items)) == ReviveNode(JArray(revived))
  {
    assert forall i :: 0 <= i < |items| ==> Revive(items[i]).Some?;
    assert seq(|items|, i requires 0 <= i < |items| => Revive(items[i]).value) == revived;
  }

  /** The same for an object and its members. */
  lemma ReviveObject(fields: map<string, Json>, revived: map<string, Json>)
    requires fields.Keys == revived.Keys
    requires forall k :: k in fields ==> Revive(fields[k]) == Some(revived[k])
    ensures Revive(JObject(fields)) == ReviveNode(JObject(revived))
  {
    assert forall k :: k in fields ==> Revive(fields[k]).Some?;
    var r := map k | k in fields :: Revive(fields[k]).value;
    assert r == revived by {
      assert r.Keys == revived.Keys;
      forall k | k in r
        ensures r[k] == revived[k]
      {
      }
    }
  }

  /** Serialising a plain value and reviving the result gives the value back:
      BigNumbers survive a save and a load to full precision. */
  lemma {:induction false} ReviveDehydrate(v: Json)
    requires Plain(v)
    ensures Revive(Dehydrate(v)) == Some(v)
  {
    match v
    case JBig(n) =>
      TagRevives(n);
    case JArray(items) =>
      var d := Dehydrate(v).items;
      forall i | 0 <= i < |d|
        ensures Revive(d[i]) == Some(items[i])
      {
        ReviveDehydrate(items[i]);
      }
      ReviveArray(d, items);
    case JObject(fields) =>
      var d := Dehydrate(v).fields;
      forall k | k in d
        ensures Revive(d[k]) == Some(fields[k])
      {
        ReviveDehydrate(fields[k]);
      }
      ReviveObject(d, fields);
    case _ =>
  }

  /** Whatever the reviver produces is plain: no tagged object survives. */
  lemma {:induction false} RevivedIsPlain(v: Json)
    requires Revive(v).Some?
    ensures Plain(Revive(v).value)
  {
    match v
    case JArray(items) =>
      var r := seq(|items|, i requires 0 <= i < |items| => Revive(items[i]).value);
      forall i | 0 <= i < |r|
        ensures Plain(r[i])
      {
        RevivedIsPlain(items[i]);
      }
    case JObject(fields) =>
      var r := map k | k in fields :: Revive(fields[k]).value;
      forall k | k in r
        ensures Plain(r[k])
      {
        RevivedIsPlain(fields[k]);
      }
    case _ =>
  }
}

=== FILE: run_properties.dfy ===
/**
  What one `run` guarantees, and what it does not, stated over `RunStep`.
*/
module RunProperties {
  import opened Wrappers
  import opened JsonValue
  import opened RecordStore
  import opened Tracker

  /** A confirmed key returns its stored receipt; nothing changes, in memory,
      on disk or in the histories. */
  lemma ConfirmedKeyReturnsEarly(s: State, signer: Wallet, confirmations: int, key: string, action: Action, writes: Writes)
    requires key in s.receipts && Confirmed(s.receipts[key])
    ensures RunStep(s, signer, confirmations, key, action, writes) == Step(s, Ok(s.receipts[key]))
  {
  }

  /** Once a key has a record, `run` never uses the action: its outcome is the
      same whatever action is passed, and no submission is made. */
  lemma RecordedKeyIgnoresAction(s: State, signer: Wallet, confirmations: int, key: string, a1: Action, a2: Action, writes: Writes)
    requires ReceiptOf(s.receipts, key).Some?
    ensures RunStep(s, signer, confirmations, key, a1, writes) == RunStep(s, signer, confirmations, key, a2, writes)
    ensures RunStep(s, signer, confirmations, key, a1, writes).state.invoked == s.invoked
    ensures RunStep(s, signer, confirmations, key, a1, writes).state.sent == s.sent
  {
  }

  /** A submitted, unconfirmed key waits on its stored hash with the default
      confirmations and stores and saves whatever that wait resolves to. */
  lemma ResumeWaitsOnStoredHash(s: State, signer: Wallet, confirmations: int, key: string, action: Action, writes: Writes)
    requires ReceiptOf(s.receipts, key).Some? && !Confirmed(s.receipts[key])
    ensures var o := RunStep(s, signer, confirmations, key, action, writes);
            var w := signer.waitForTransaction(Get(s.receipts[key], "transactionHash"), confirmations);
            && (w.Resolved? && writes.result ==>
                  o.result == Ok(w.value) && o.state.receipts == s.receipts[key := w.value] &&
                  o.state.file == Some(Snapshot(o.state.receipts)))
            && (w.Resolved? && !writes.result ==>
                  o.result == Err(WriteFailed) && o.state.receipts == s.receipts[key := w.value] &&
                  o.state.file == s.file)
            && (!w.Resolved? ==> o.result.Err? && o.state == s)
  {
  }

  /** An absent key uses the action exactly once, and counts one transaction
      reaching the network exactly when the action is not refused before the
      broadcast. */
  lemma AbsentKeyInvokesActionOnce(s: State, signer: Wallet, confirmations: int, key: string, action: Action, writes: Writes)
    requires ReceiptOf(s.receipts, key).None?
    ensures var o := RunStep(s, signer, confirmations, key, action, writes);
            && o.state.invoked == s.invoked + multiset{key}
            && o.state.sent == if Invoke(action, signer).Refused? then s.sent else s.sent + multiset{key}
  {
  }

  /** After a fresh submission the "submitted" record is in memory and on disk
      before the confirmation wait: unless the run completes with its second
      save, the file holds exactly the old map plus that record. */
  lemma SubmittedRecordSavedBeforeWait(s: State, signer: Wallet, confirmations: int, key: string, action: Action, writes: Writes)
    requires ReceiptOf(s.receipts, key).None?
    requires Invoke(action, signer).Sent? && writes.submitted
    ensures var o := RunStep(s, signer, confirmations, key, action, writes);
            var submitted := s.receipts[key := SubmittedRecord(Invoke(action, signer).hash)];
            || o.state.file == Some(Snapshot(submitted))
            || (o.result.Ok? && writes.result && o.state.file == Some(Snapshot(o.state.receipts)))
  {
  }

  /** A wait that yields `null` rejects the run; memory and disk both keep the
      "submitted" record for the key. */
  lemma MissingReceiptKeepsSubmittedRecord(s: State, signer: Wallet, confirmations: int, key: string, action: Action, writes: Writes)
    requires ReceiptOf(s.receipts, key).None?
    requires Invoke(action, signer).Sent? && writes.submitted
    requires Invoke(action, signer).wait(confirmations) == Resolved(JNull)
    ensures var o := RunStep(s, signer, confirmations, key, action, writes);
            && o.result == Err(MissingReceipt)
            && o.state.receipts == s.receipts[key := SubmittedRecord(Invoke(action, signer).hash)]
            && o.state.file == Some(Snapshot(o.state.receipts))
  {
  }

  /** A successful run leaves its result under the key, every other key as it
      was, and either changes nothing (the key was already confirmed) or has
      saved the new map. */
  lemma SuccessStoresAndSaves(s: State, signer: Wallet, confirmations: int, key: string, action: Action, writes: Writes)
    requires RunStep(s, signer, confirmations, key, action, writes).result.Ok?
    ensures var o := RunStep(s, signer, confirmations, key, action, writes);
            && o.state.receipts == s.receipts[key := o.result.value]
            && (o.state == s || o.state.file == Some(Snapshot(o.state.receipts)))
  {
    var o := RunStep(s, signer, confirmations, key, action, writes);
    assert o.state.receipts == s.receipts[key := o.result.value];
  }

  /** Idempotence: when a run returns a confirmed receipt, a second run with
      the same key returns the identical receipt and changes nothing, whatever
      its action, its network and its disk do. */
  lemma {:induction false} RunIsIdempotent(s: State, signer: Wallet, confirmations: int, key: string,
                                           a1: Action, w1: Writes, a2: Action, w2: Writes)
    requires RunStep(s, signer, confirmations, key, a1, w1).result.Ok?
    requires Confirmed(RunStep(s, signer, confirmations, key, a1, w1).result.value)
    ensures var o := RunStep(s, signer, confirmations, key, a1, w1);
            RunStep(o.state, signer, confirmations, key, a2, w2) == Step(o.state, o.result)
  {
    var o := RunStep(s, signer, confirmations, key, a1, w1);
    ConfirmedKeyReturnsEarly(o.state, signer, confirmations, key, a2, w2);
  }

  /** Transitions only go forward: a confirmed record is never changed by a
      run, whichever key it is for. */
  lemma ConfirmedStaysConfirmed(s: State, signer: Wallet, confirmations: int, k: string,
                                key: string, action: Action, writes: Writes)
    requires k in s.receipts && Confirmed(s.receipts[k])
    ensures var o := RunStep(s, signer, confirmations, key, action, writes);
            k in o.state.receipts && o.state.receipts[k] == s.receipts[k]
  {
  }

  /** Crash safety: if the process dies while waiting for a fresh submission,
      a tracker reopened from the file finds the "submitted" record, and its
      next run for the key waits on that hash and uses no action. */
  lemma CrashDuringWaitResumes(s: State, signer: Wallet, confirmations: int, key: string, action: Action, writes: Writes,
                               action2: Action, writes2: Writes)
    requires Plain(JObject(s.receipts))
    requires ReceiptOf(s.receipts, key).None?
    requires Invoke(action, signer).Sent? && writes.submitted
    requires Invoke(action, signer).wait(confirmations) == Abandoned
    ensures var crashed := RunStep(s, signer, confirmations, key, action, writes).state;
            var reopened := crashed.(receipts := OpenReceipts(crashed.file));
            var hash := Invoke(action, signer).hash;
            && ReceiptOf(reopened.receipts, key) == Some(SubmittedRecord(hash))
            && RunStep(reopened, signer, confirmations, key, action2, writes2).state.invoked == crashed.invoked
            && RunStep(reopened, signer, confirmations, key, action2, writes2).state.sent == crashed.sent
  {
    var hash := Invoke(action, signer).hash;
    var submitted := s.receipts[key := SubmittedRecord(hash)];
    assert Plain(JObject(submitted));
    SnapshotReloads(submitted);
    var crashed := RunStep(s, signer, confirmations, key, action, writes).state;
    var reopened := crashed.(receipts := OpenReceipts(crashed.file));
    RecordedKeyIgnoresAction(reopened, signer, confirmations, key, action2, action2, writes2);
  }

  /** Not guaranteed: the resume path stores whatever `waitForTransaction`
      resolves to. If that is `null`, the key reads as absent afterwards and
      the next run submits it again. */
  lemma NullResumeAllowsResubmission(s: State, signer: Wallet, confirmations: int, key: string, action: Action,
                                     writes: Writes, action2: Action, writes2: Writes)
    requires ReceiptOf(s.receipts, key).Some? && !Confirmed(s.receipts[key])
    requires signer.waitForTransaction(Get(s.receipts[key], "transactionHash"), confirmations) == Resolved(JNull)
    ensures var o := RunStep(s, signer, confirmations, key, action, writes);
            && o.state.receipts[key] == JNull
            && RunStep(o.state, signer, confirmations, key, action2, writes2).state.invoked == o.state.invoked + multiset{key}
  {
  }

  /** Not guaranteed: when the save after a fresh submission fails, memory is
      ahead of the file, and a tracker reopened from the file submits the key
      again. */
  lemma FailedSaveAllowsResubmissionAfterRestart(s: State, signer: Wallet, confirmations: int, key: string,
                                                 action: Action, writes: Writes, action2: Action, writes2: Writes)
    requires OpenReceipts(s.file) == s.receipts
    requires ReceiptOf(s.receipts, key).None?
    requires Invoke(action, signer).Sent? && !writes.submitted
    ensures var o := RunStep(s, signer, confirmations, key, action, writes);
            var reopened := o.state.(receipts := OpenReceipts(o.state.file));
            && ReceiptOf(o.state.receipts, key).Some?
            && RunStep(reopened, signer, confirmations, key, action2, writes2).state.invoked == o.state.invoked + multiset{key}
  {
  }

  /** Not guaranteed: a transaction that reaches the network while its
      response does not reach `run` (the promise rejects after the broadcast,
      or the process dies awaiting it) leaves no record in memory or on disk.
      The key still reads as absent, also after a restart, so the next run
      uses the action again and a second transaction for the key can go out. */
  lemma LostSubmissionAllowsResubmission(s: State, signer: Wallet, confirmations: int, key: string,
                                         action: Action, writes: Writes, action2: Action, writes2: Writes)
    requires OpenReceipts(s.file) == s.receipts
    requires ReceiptOf(s.receipts, key).None?
    requires Invoke(action, signer).Lost?
    ensures var o := RunStep(s, signer, confirmations, key, action, writes);
            var reopened := o.state.(receipts := OpenReceipts(o.state.file));
            var again := RunStep(reopened, signer, confirmations, key, action2, writes2).state;
            && o.result.Err? && o.state.receipts == s.receipts && o.state.file == s.file
            && o.state.sent[key] == s.sent[key] + 1
            && again.invoked == o.state.invoked + multiset{key}
            && (Invoke(action2, signer).Refused? <==> again.sent[key] == s.sent[key] + 1)
            && (!Invoke(action2, signer).Refused? <==> again.sent[key] == s.sent[key] + 2)
  {
  }
}

=== FILE: tracker.dfy ===
/**
  The per-key state machine of `TxManager.run` (TxManager.ts:58-113) as a
  function of the tracker's state and of what the network and the disk do.
  Network calls are values supplied from outside: the provider's
  `waitForTransaction`, the submission an action produces, and what its
  `wait` resolves to. The class in module Manager runs the same steps
  imperatively and is proved to agree with `RunStep`.
*/
module Tracker {
  import opened Wrappers
  import opened JsonValue
  import opened RecordStore

  /** How an awaited network promise settles. `Abandoned`: the process is
      terminated while waiting, the only way a wait is cut short. */
  datatype Awaited = Resolved(value: Json) | Rejected | Abandoned

  /** What awaiting the action's promise (TxManager.ts:93) comes to: the
      transaction response, with its hash and its `wait`; a rejection before
      anything reached the network; or a transaction the network received
      whose response never reached `run`, because the promise rejected after
      the broadcast or (`crashed`) the process died while awaiting it. */
  datatype Submission = Sent(hash: string, wait: int -> Awaited) | Refused | Lost(crashed: bool)

  /** The signer; its provider's `waitForTransaction(hash, confirmations)`,
      where `None` is an `undefined` hash. */
  datatype Wallet = Wallet(address: string, waitForTransaction: (Option<Json>, int) -> Awaited)

  /** `run`'s second argument: a promise made before the call, or a function
      called with the signer. */
  datatype Action = Ready(response: Submission) | Deferred(send: Wallet -> Submission)

  /** Whether the file writes of one `run` succeed: `submitted`, the save of
      the "submitted" record (TxManager.ts:101); `result`, the save of what a
      confirmation wait resolved to (line 80 on resume, line 110 after a
      fresh submission). One `run` makes at most one save of each kind. */
  datatype Writes = Writes(submitted: bool, result: bool)

  /** Why `run` rejects. `Crashed` stands for the process dying in an await. */
  datatype Failure = WriteFailed | SubmitFailed | WaitFailed | MissingReceipt | Crashed

  /** The tracker's state: the in-memory map, the file's content, and two
      ghost histories: the keys whose action was used (called, or its ready
      promise awaited), and the keys whose transaction reached the network,
      whether or not its response reached `run`. */
  datatype State = State(
    receipts: map<string, Json>,
    file: Option<Json>,
    invoked: multiset<string>,
    sent: multiset<string>)

  datatype Step = Step(state: State, result: Result<Json, Failure>)

  /** `receipt(key)` (TxManager.ts:115-117): `receipts[key] || null`. A key
      holding a falsy value reads as absent. */
  function ReceiptOf(receipts: map<string, Json>, key: string): (r: Option<Json>)
    ensures r.Some? <==> key in receipts && Truthy(receipts[key])
    ensures r.Some? ==> r.value == receipts[key]
  {
    if key in receipts && Truthy(receipts[key]) then Some(receipts[key]) else None
  }

  /** A stored receipt counts as confirmed when `!!receipt.confirmations`:
      only an object whose `confirmations` member is truthy. */
  function Confirmed(v: Json): (b: bool)
    ensures b <==> v.JObject? && "confirmations" in v.fields && Truthy(v.fields["confirmations"])
    ensures b ==> Truthy(v)
  {
    TruthyProperty(Get(v, "confirmations"))
  }

  /** `save`: the file now holds a snapshot of the map. */
  function Persist(s: State): (t: State)
    ensures t.receipts == s.receipts && t.invoked == s.invoked && t.sent == s.sent
    ensures t.file == Some(Snapshot(s.receipts))
  {
    s.(file := Some(Snapshot(s.receipts)))
  }

  /** Using the action (TxManager.ts:86-93): a function is called with the
      tracker's signer; a ready promise was made before `run`, so what it
      settles to does not depend on the signer. */
  function Invoke(action: Action, signer: Wallet): (sub: Submission)
    ensures action.Deferred? ==> sub == action.send(signer)
    ensures action.Ready? ==> sub == action.response
  {
    match action
    case Ready(response) => response
    case Deferred(send) => send(signer)
  }

  /** One `run(key, action)` with `confirmations` as `defaultConfirmations`. */
  function RunStep(s: State, signer: Wallet, confirmations: int, key: string, action: Action, writes: Writes): (o: Step)
    ensures o.result.Ok? ==> key in o.state.receipts && o.state.receipts[key] == o.result.value
    ensures forall k :: k != key ==> (k in o.state.receipts <==> k in s.receipts)
    ensures forall k :: k != key && k in s.receipts ==> o.state.receipts[k] == s.receipts[k]
    ensures o.state.invoked == s.invoked || o.state.invoked == s.invoked + multiset{key}
    ensures o.state.sent == s.sent || o.state.sent == s.sent + multiset{key}
  {
    var found := ReceiptOf(s.receipts, key);
    if found.Some? then
      var rec := found.value;
      if Confirmed(rec) then Step(s, Ok(rec))
      else
        match signer.waitForTransaction(Get(rec, "transactionHash"), confirmations)
        case Rejected => Step(s, Err(WaitFailed))
        case Abandoned => Step(s, Err(Crashed))
        case Resolved(r) =>
          var s1 := s.(receipts := s.receipts[key := r]);
          if writes.result then Step(Persist(s1), Ok(r)) else Step(s1, Err(WriteFailed))
    else
      var s0 := s.(invoked := s.invoked + multiset{key});
      match Invoke(action, signer)
      case Refused => Step(s0, Err(SubmitFailed))
      case Lost(crashed) => Step(s0.(sent := s0.sent + multiset{key}), Err(if crashed then Crashed else SubmitFailed))
      case Sent(hash, wait) =>
        var s1 := s0.(receipts := s0.receipts[key := SubmittedRecord(hash)], sent := s0.sent + multiset{key});
        if !writes.submitted then Step(s1, Err(WriteFailed))
        else
          var s2 := Persist(s1);
          match wait(confirmations)
          case Rejected => Step(s2, Err(WaitFailed))
          case Abandoned => Step(s2, Err(Crashed))
          case Resolved(r) =>
            if r == JNull then Step(s2, Err(MissingReceipt))
            else
              var s3 := s2.(receipts := s2.receipts[key := r]);
              if writes.result then Step(Persist(s3), Ok(r)) else Step(s3, Err(WriteFailed))
  }
}

=== FILE: wrappers.dfy ===
/** Option and Result, used for JavaScript's `null` and for thrown errors. */
module Wrappers {

  datatype Option<+T> = None | Some(value: T)

  datatype Result<+R, +E> = Ok(value: R) | Err(error: E)
}
